=== FILE: README.md ===
# SlotSync walk-in queue: server state machine and customer session

This project models the two halves of the SlotSync "take a number" queue in Dafny.

The queue server (`backend/main.py`) keeps three pieces of process-wide state:
- the waiting queue;
- the history of served entries;
- the last token issued, starting at 100.

It serves four requests:
- **status** reports the number of people waiting, a flat 15 minutes per person, the queue, and the last five served entries.
- **join** issues the next token and appends a waiting entry.
- **leave** drops every entry carrying a given token and reports whether the queue got shorter.
- **next** moves the head of the queue to the end of the history, marked completed.

Here the server state is an immutable `State` value. Each request is a pure function that returns the new state beside its response. Status takes the state and returns only a report, so it cannot change anything.

The invariant `QueueInvariant.Valid` holds in every state reachable from process start, by induction over any sequence of requests served one at a time. It says:
- the tokens of the history followed by the queue strictly increase, so no token occurs twice and customers are served in the order they joined;
- every token is above 100 and at most the counter;
- queue entries are waiting and history entries are completed.

The customer page (`frontend/app/page.tsx`) holds a session (`myToken`, `myName`), the last status snapshot it fetched, and the browser's key-value store. Its transitions are:
- restoring the session at startup;
- applying a poll result;
- handling a join result;
- the leave handler.

The outcomes of network requests and the viewer's answer to the leave confirmation are inputs to these transitions. `AmIInQueue` is the page's membership test. Module `Interplay` links the two halves: what the page shows after its own join, after its token is dropped on the server, and after it is served.

Files:
- `wrappers.dfy`: `Option`.
- `ordering.dfy`: order-preserving subsequences.
- `queue_server.dfy`: the server state and requests.
- `queue_invariant.dfy`: the invariant and its preservation, plus request traces.
- `number_text.dfy`: `parseInt` and `toString`, the conversions between a token and the text the store keeps.
- `client_session.dfy`: the page.
- `interplay.dfy`: end-to-end properties.

Two behaviours of the page's code are easy to miss:
- **A confirmed leave does not always clear the session.** `handleLeave` awaits the leave request without a `try`. When the request itself fails, the handler stops before clearing anything (frontend/app/page.tsx:105-117). `HandleLeave` models this with its `Unreachable` outcome.
- **Truthiness checks.** `if (savedToken && savedName)` treats an empty saved text as absent, so such a session is not restored (frontend/app/page.tsx:45). `if (myToken)` treats token 0 and `NaN` as absent, so no leave request is sent for them (frontend/app/page.tsx:105).
- **The store holds text.** The token is written with `toString` and read back with `parseInt` (frontend/app/page.tsx:46 and 83). So `"12abc"` restores token 12, and text with no leading digits restores a `NaN` token that matches no row.

## Model

| member | source | states |
|---|---|---|
| QueueServer.GetStatus | backend/main.py:38-50 | status reports the queue unchanged, `people_ahead` equal to its length, 15 minutes per person, and the last min(5, n) history entries in their original order |
| QueueServer.LastN | backend/main.py:49 | Python's `[-5:]` slice yields min(5, n) elements that are a suffix of the history |
| QueueServer.Join | backend/main.py:52-72 | join raises the counter by exactly one, returns that token and the request's name, appends exactly one waiting entry with that token, name, phone and service (default "Haircut") and no completion time, and keeps earlier entries and history |
| QueueServer.RemoveToken | backend/main.py:80 | the filter keeps exactly the entries whose token differs, with their multiplicities and order; it shortens the queue iff the token is present and is the identity otherwise |
| QueueServer.Leave | backend/main.py:75-85 | leave reports "left" ("You have left the queue.") iff some queue entry has the token and "not found" otherwise; history and counter are untouched; with an absent token the state is unchanged |
| QueueServer.Served | backend/main.py:92-93 | a served entry keeps its identity fields and becomes completed with the completion time set |
| QueueServer.Next | backend/main.py:88-96 | next on a non-empty queue calls the head, leaves the tail as the queue and appends the completed head to the history; on an empty queue nothing changes |
| QueueInvariant.ValidQueue | backend/main.py:54-94 | in a valid state queue tokens strictly increase, lie in (100, counter], history tokens strictly increase and precede every queue token |
| QueueInvariant.JoinPreservesValid | backend/main.py:54-66 | join keeps the invariant |
| QueueInvariant.JoinTokenFresh | backend/main.py:54-58 | in a valid state the token join issues is above 100 and is not the token of any entry in the history or the queue |
| QueueInvariant.LeavePreservesValid | backend/main.py:77-80 | leave keeps the invariant |
| QueueInvariant.RemovePresentToken | backend/main.py:80 | with strictly increasing tokens the filter removes exactly one entry when the token is present |
| QueueInvariant.LeaveRemovesOne | backend/main.py:79-85 | in a valid state "left" means the queue shrank by exactly one, and "not found" means nothing changed |
| QueueInvariant.NextConservesTokens | backend/main.py:90-94 | next neither loses nor duplicates a token: the admitted tokens, history then queue, are the same sequence before and after |
| QueueInvariant.NextPreservesValid | backend/main.py:89-96 | next keeps the invariant |
| QueueInvariant.StatusAfterJoin | backend/main.py:40-42 | after a join the reported count grows by one and the estimate by 15 minutes |
| QueueInvariant.StatusAfterNext | backend/main.py:40-49 | after serving someone the count drops by one, the estimate by 15 minutes, and the served entry is last in the reported history |
| QueueInvariant.RunValid | backend/main.py:28-96 | every state reachable from process start by any sequence of status, join, leave and next requests is valid |
| QueueInvariant.RunCounter | backend/main.py:30-55 | the counter equals 100 plus the number of joins served so far |
| QueueInvariant.FirstToken | backend/main.py:30-55 | the first join after process start, whatever requests precede it, is issued 101 |
| QueueInvariant.IssuedTokens | backend/main.py:54-70 | every token returned by a join lies in (100, counter], and the returned tokens strictly increase, so none is returned twice |
| QueueInvariant.NeverReissued | backend/main.py:54-70 | the token the next join returns was never returned before, including to entries that have since left or been served |
| NumberText.TrimStart | frontend/app/page.tsx:46 | `parseInt` first drops exactly the leading run of white space and line terminators |
| NumberText.DigitPrefix | frontend/app/page.tsx:46 | `parseInt` reads the longest prefix made of digits of the radix and stops at the first non-digit |
| NumberText.NatToString | frontend/app/page.tsx:83 | `toString` writes a non-negative integer as decimal digits with no leading zero, whose value is the integer |
| NumberText.IntToString | frontend/app/page.tsx:83 | `toString` writes a negative integer as a minus sign before the digits of its magnitude |
| NumberText.ParseIntSkipsSpace | frontend/app/page.tsx:46 | leading white space never changes what `parseInt` reads |
| NumberText.ParseIntReadsLeadingNumber | frontend/app/page.tsx:46 | `parseInt` reads back the integer `toString` wrote, also when text follows that does not continue the numeral |
| NumberText.ParseIntRoundTrip | frontend/app/page.tsx:46 | `parseInt(n.toString())` is `n` for every integer `n` |
| NumberText.ParseIntNoDigits | frontend/app/page.tsx:46 | empty text, and text starting with a character that is not white space, a sign or a digit, read as `NaN` |
| ClientSession.Mount | frontend/app/page.tsx:42-48 | the session is restored iff both the saved token text and the saved name are non-empty; it then holds `parseInt` of the token text (possibly `NaN`) and the name; otherwise it stays empty |
| ClientSession.ApplyPoll | frontend/app/page.tsx:55-65 | a successful poll replaces the snapshot wholesale and ends loading; a failed poll changes nothing; the session and store are never touched |
| ClientSession.HandleJoin | frontend/app/page.tsx:81-95 | a successful join writes the returned token as text and the returned name to the two keys and holds both in the session; every other key is left alone; a failed join changes nothing |
| ClientSession.ClearSession | frontend/app/page.tsx:113-117 | clearing removes exactly the two session keys and drops token and name |
| ClientSession.HandleLeave | frontend/app/page.tsx:102-119 | unconfirmed leave does nothing and sends nothing; confirmed leave sends the held token iff it is held, not `NaN` and non-zero, then clears the session unless that request failed |
| ClientSession.HasToken | frontend/app/page.tsx:124 | `some(c => c.token === t)` is true iff some entry carries the token |
| ClientSession.AmIInQueue | frontend/app/page.tsx:124 | the viewer is in the queue iff a snapshot is held and one of its rows is the viewer's own (the `isMe` test of line 183); false without a token or with a `NaN` token |
| ClientSession.RestoreAfterJoin | frontend/app/page.tsx:42-87 | a joined session is restored on reload, with the same integer token, when the name is non-empty; with an empty name nothing is restored |
| ClientSession.RestoreReadsLeadingNumber | frontend/app/page.tsx:42-48 | a saved token text that starts with a numeral is restored as that numeral's value, whatever non-continuing text follows |
| ClientSession.RestoreNotANumber | frontend/app/page.tsx:42-48 | a saved token text with no leading numeral is restored as `NaN`; such a session is never shown in the queue, and a confirmed leave sends nothing but clears it |
| ClientSession.RestoreNumericText | frontend/app/page.tsx:42-48 | the saved texts "101" and "42" restore token 101 and name "42" |
| ClientSession.RestoreTrailingText | frontend/app/page.tsx:42-48 | the saved token text "12abc" restores token 12 |
| ClientSession.RestoreAfterLeave | frontend/app/page.tsx:113-117 | after a completed leave nothing is restored on reload |
| ClientSession.PollProperties | frontend/app/page.tsx:55-65 | failed polls never change membership; repeating a poll result changes nothing more; the latest successful poll wins |
| ClientSession.StaleSessionDetected | frontend/app/page.tsx:123-124 | a held token the fetched queue no longer lists reads as not in the queue, and the page still holds it |
| Interplay.JoinThenPoll | frontend/app/page.tsx:81-90 | after a join and a poll of the server's status right after the join, the viewer is in the queue; in a valid state exactly the new last row is theirs |
| Interplay.LeaveAfterJoin | frontend/app/page.tsx:105-110 | a session obtained from a join in a valid state sends a leave with the issued token, and when the leave reaches the server right after the join, the server answers "left" |
| Interplay.RemovedElsewhere | frontend/app/page.tsx:123-124 | once the server drops the viewer's token, the next poll shows them as not in the queue though the token is still held |
| Interplay.ServedThenPoll | backend/main.py:90-95 | once the viewer at the head is served, the next poll shows them as not in the queue |

## Left out

- QueueInvariant.RunValid: requests are treated as atomic and served one at a time. The invariant, and every lemma over request traces, is claimed only under that assumption. The endpoints are plain `def` handlers, which the web framework may run on a thread pool. There, two joins can interleave on `current_token += 1` (backend/main.py:55) and issue the same token. A join can also append to the old list while leave rebinds `queue_db` (backend/main.py:80), and that join is then lost. Thread interleaving is not modelled.
- HTTP routing, CORS and JSON (de)serialisation of `backend/main.py` are plumbing. Requests and responses are datatypes.
- `datetime.now().strftime` timestamps are passed in as opaque strings (`now`).
- The response text `Called #<token>` is not produced. `Next` returns the token in `Called(token)`.
- The home endpoint's fixed greeting is left out, since it carries no state.
- Rendering, the 3-second polling interval and its cleanup, `alert` and `confirm` are UI and timers. The confirmation answer and the request outcomes are inputs.
- The follow-up `fetchStatus()` calls after join and leave are not folded into those transitions. They are separate `ApplyPoll` steps.
- The modal, form fields and `submitting` flag of the join form are left out. They hold no session logic.
- NumberText.ParseInt: numbers are exact integers. Rounding to the nearest double beyond 2^53, and `toString`'s exponent notation from 10^21 up, are not modelled; the server issues tokens counting up from 101. Negative zero is identified with zero, which `===` and truthiness do as well.
- The admin page (`frontend/app/admin/page.tsx`) is not part of this model. It is a PIN gate and fetch wrappers for endpoints the backend does not define.
- The countdown with drift correction, the per-customer wait projection, optimistic move, the queue-equality update gate, and the edit, delete, serve-now and reset actions are not modelled. They do not occur in these two files.

=== FILE: client_session.dfy ===
/** The customer page's session logic: which token and name the viewer holds,
    how they survive a reload through the browser's key-value store, how the
    held queue snapshot is replaced by polls, and whether the viewer is still
    in the queue. Network results and the viewer's answer to the leave
    confirmation are inputs to the transitions. */
module ClientSession {
  import opened Wrappers
  import opened QueueServer
  import opened NumberText

  const TokenKey: string := "slotSync_token"
  const NameKey: string := "slotSync_name"

  /** The browser's key-value store: text under text keys. A missing key reads
      as `null`. */
  type Store = map<string, string>

  /** The value under `key` is truthy: present and not the empty text. */
  predicate Saved(store: Store, key: string) {
    key in store && store[key] != ""
  }

  /** The page's state: the held snapshot (none before the first successful
      poll), the loading flag, the session (`None` is `null`), and the
      persistent store. */
  datatype Page = Page(
    data: Option<StatusReport>,
    loading: bool,
    myToken: Option<JsInt>,
    myName: Option<string>,
    store: Store)

  // ---------------------------------------------------------------------------
  // startup

  /** The page as it starts over `store`: the session is restored only when both
      the saved token text and the saved name are non-empty, and the token is
      whatever `parseInt` makes of its text, `NaN` included. */
  function Mount(store: Store): (p: Page)
    ensures p.store == store && p.data == None && p.loading
    ensures p.myToken.Some? <==> Saved(store, TokenKey) && Saved(store, NameKey)
    ensures p.myToken.Some? ==> p.myToken.value == ParseInt(store[TokenKey]) && p.myName == Some(store[NameKey])
    ensures p.myToken.None? ==> p.myName.None?
  {
    var blank := Page(None, true, None, None, store);
    if Saved(store, TokenKey) && Saved(store, NameKey) then
      blank.(myToken := Some(ParseInt(store[TokenKey])), myName := Some(store[NameKey]))
    else blank
  }

  // ---------------------------------------------------------------------------
  // polling

  /** Result of one status request: the report, a non-success status, or a
      thrown error (network failure or unreadable body). */
  datatype PollOutcome = Fetched(report: StatusReport) | HttpError | NetworkError

  /** A successful poll replaces the held snapshot wholesale and ends loading;
      a failed one changes nothing. The session is never touched. */
  function ApplyPoll(p: Page, o: PollOutcome): (r: Page)
    ensures o.Fetched? ==> r.data == Some(o.report) && !r.loading
    ensures r.myToken == p.myToken && r.myName == p.myName && r.store == p.store
    ensures !o.Fetched? ==> r == p
  {
    match o
    case Fetched(report) => p.(data := Some(report), loading := false)
    case _ => p
  }

  // ---------------------------------------------------------------------------
  // join

  /** Result of the join request: the server's answer on success, a
      non-success status, or a thrown error. */
  datatype JoinOutcome = Joined(yourToken: int, yourName: string) | JoinRejected | JoinNetworkError

  /** Store the returned token as text and the returned name, and hold both, on
      success; change nothing otherwise. */
  function HandleJoin(p: Page, o: JoinOutcome): (r: Page)
    ensures o.Joined? ==> r.myToken == Some(Int(o.yourToken)) && r.myName == Some(o.yourName)
    ensures o.Joined? ==> r.store.Keys == p.store.Keys + {TokenKey, NameKey}
    ensures o.Joined? ==> r.store[TokenKey] == IntToString(o.yourToken) && r.store[NameKey] == o.yourName
    ensures o.Joined? ==> forall k :: k in p.store && k != TokenKey && k != NameKey ==> r.store[k] == p.store[k]
    ensures o.Joined? ==> r.data == p.data && r.loading == p.loading
    ensures !o.Joined? ==> r == p
  {
    match o
    case Joined(t, n) =>
      p.(store := p.store[TokenKey := IntToString(t)][NameKey := n], myToken := Some(Int(t)), myName := Some(n))
    case _ => p
  }

  // ---------------------------------------------------------------------------
  // leave

  /** Whether the leave request, once sent, came back (with any status) or the
      request itself failed. */
  datatype RequestOutcome = Delivered | Unreachable

  /** The page after the leave handler, and the token it sent to the server, if any. */
  datatype LeaveStep = LeaveStep(page: Page, request: Option<int>)

  /** The session cleared: both keys removed from the store, token and name dropped. */
  function ClearSession(p: Page): (r: Page)
    ensures r.myToken.None? && r.myName.None?
    ensures r.store.Keys == p.store.Keys - {TokenKey, NameKey}
    ensures forall k :: k in r.store ==> r.store[k] == p.store[k]
    ensures r.data == p.data && r.loading == p.loading
  {
    p.(store := p.store - {TokenKey, NameKey}, myToken := None, myName := None)
  }

  /** The leave handler. Without confirmation nothing happens. With it, a request
      carrying the held token is sent when that token is truthy (held, not `NaN`
      and not zero); if that request fails the handler stops there, otherwise the
      session is cleared. */
  function HandleLeave(p: Page, confirmed: bool, outcome: RequestOutcome): (r: LeaveStep)
    ensures !confirmed ==> r.page == p && r.request == None
    ensures confirmed ==> (r.request.Some? <==> p.myToken.Some? && p.myToken.value.Int? && p.myToken.value.n != 0)
    ensures r.request.Some? ==> p.myToken == Some(Int(r.request.value))
    ensures r.request.Some? && outcome == Unreachable ==> r.page == p
    ensures confirmed && !(r.request.Some? && outcome == Unreachable) ==> r.page == ClearSession(p)
  {
    if !confirmed then LeaveStep(p, None)
    else
      var request := if p.myToken.Some? && p.myToken.value.Int? && p.myToken.value.n != 0
                     then Some(p.myToken.value.n) else None;
      if request.Some? && outcome == Unreachable then LeaveStep(p, request)
      else LeaveStep(ClearSession(p), request)
  }

  // ---------------------------------------------------------------------------
  // membership

  /** Row `e` of the list is the viewer's own: `NaN` and `null` equal no token. */
  predicate IsMe(p: Page, e: Entry) {
    p.myToken == Some(Int(e.token))
  }

  /** `q.some(c => c.token === t)`. */
  function HasToken(q: seq<Entry>, t: int): (b: bool)
    ensures b <==> Holds(q, t)
  {
    if |q| == 0 then false
    else
      HoldsUncons(q, t);
      q[0].token == t || HasToken(q[1..], t)
  }

  /** Whether the held token is in the held snapshot: false before the first
      poll, false without a token, false once the server no longer lists it. */
  function AmIInQueue(p: Page): (b: bool)
    ensures b <==> p.data.Some? && exists i :: 0 <= i < |p.data.value.queue| && IsMe(p, p.data.value.queue[i])
  {
    match (p.data, p.myToken)
    case (Some(d), Some(Int(t))) => HasToken(d.queue, t)
    case _ => false
  }

  // ---------------------------------------------------------------------------
  // properties of the transitions

  /** A joined session survives a reload, provided the name is not empty. */
  lemma RestoreAfterJoin(p: Page, token: int, name: string)
    ensures var q := Mount(HandleJoin(p, Joined(token, name)).store);
            name != "" ==> q.myToken == Some(Int(token)) && q.myName == Some(name)
    ensures var q := Mount(HandleJoin(p, Joined(token, name)).store);
            name == "" ==> q.myToken == None && q.myName == None
  {
    ParseIntRoundTrip(token);
  }

  /** A saved token text that starts with a numeral is restored as that
      numeral's value, whatever text follows that does not continue it. */
  lemma RestoreReadsLeadingNumber(store: Store, n: int, tail: string)
    requires TokenKey in store && store[TokenKey] == IntToString(n) + tail
    requires |tail| == 0 || !IsDecimalDigit(tail[0])
    requires n == 0 && |tail| > 0 ==> tail[0] != 'x' && tail[0] != 'X'
    requires Saved(store, NameKey)
    ensures Mount(store).myToken == Some(Int(n)) && Mount(store).myName == Some(store[NameKey])
  {
    ParseIntReadsLeadingNumber(n, tail);
  }

  /** A saved token text with no leading numeral is restored as `NaN`: that
      session is never shown in the queue, and a confirmed leave sends no
      request but still clears it. */
  lemma RestoreNotANumber(store: Store, snapshot: StatusReport, outcome: RequestOutcome)
    requires TokenKey in store && store[TokenKey] != ""
    requires var c := store[TokenKey][0]; !IsSpace(c) && c != '-' && c != '+' && !IsDecimalDigit(c)
    requires Saved(store, NameKey)
    ensures Mount(store).myToken == Some(NaN)
    ensures !AmIInQueue(Mount(store).(data := Some(snapshot)))
    ensures HandleLeave(Mount(store), true, outcome) == LeaveStep(ClearSession(Mount(store)), None)
  {
    ParseIntNoDigits(store[TokenKey]);
  }

  /** Numeric text under the token key is read as that number, and a name
      that looks like a number is still a name. */
  lemma RestoreNumericText()
    ensures Mount(map[TokenKey := "101", NameKey := "42"]).myToken == Some(Int(101))
    ensures Mount(map[TokenKey := "101", NameKey := "42"]).myName == Some("42")
  {
    NumeralOf101();
    RestoreReadsLeadingNumber(map[TokenKey := "101", NameKey := "42"], 101, "");
  }

  lemma NumeralOf101()
    ensures IntToString(101) + "" == "101"
  {
    assert NatToString(10) == "10";
  }

  /** Text after the leading digits is ignored, as `parseInt` does. */
  lemma RestoreTrailingText()
    ensures Mount(map[TokenKey := "12abc", NameKey := "Ann"]).myToken == Some(Int(12))
  {
    assert IntToString(12) + "abc" == "12abc";
    RestoreReadsLeadingNumber(map[TokenKey := "12abc", NameKey := "Ann"], 12, "abc");
  }

  /** A completed leave leaves nothing to restore on reload. */
  lemma RestoreAfterLeave(p: Page, outcome: RequestOutcome)
    ensures var step := HandleLeave(p, true, outcome);
            !(step.request.Some? && outcome == Unreachable) ==>
              Mount(step.page.store).myToken == None && Mount(step.page.store).myName == None
  {
  }

  /** Failed polls keep the held snapshot, so they never make the viewer look
      dequeued; a repeated poll with the same result changes nothing more; the
      latest successful poll wins. */
  lemma PollProperties(p: Page, o: PollOutcome, report: StatusReport)
    ensures !o.Fetched? ==> AmIInQueue(ApplyPoll(p, o)) == AmIInQueue(p)
    ensures ApplyPoll(ApplyPoll(p, o), o) == ApplyPoll(p, o)
    ensures ApplyPoll(ApplyPoll(p, o), Fetched(report)) == ApplyPoll(p, Fetched(report))
  {
  }

  /** A session whose token the server no longer lists is detected as not in
      the queue after the next successful poll, though the page still holds it. */
  lemma StaleSessionDetected(p: Page, report: StatusReport)
    requires p.myToken.Some?
    requires p.myToken.value.Int? ==> !Holds(report.queue, p.myToken.value.n)
    ensures !AmIInQueue(ApplyPoll(p, Fetched(report)))
    ensures ApplyPoll(p, Fetched(report)).myToken == p.myToken
  {
  }
}

=== FILE: interplay.dfy ===
/** The customer page talking to the queue server: what the viewer sees after
    their own join, after someone else withdraws their token, and after they
    are served, when the page's poll reads the server's status. */
module Interplay {
  import opened Wrappers
  import opened QueueServer
  import opened QueueInvariant
  import opened ClientSession
  import opened NumberText

  /** After a successful join and a successful poll right after it (no other
      request in between), the viewer is in the queue, and in a valid server
      state their row is the last one and the only one marked as theirs. */
  lemma JoinThenPoll(s: State, c: Customer, now: string, p: Page)
    ensures var j := Join(s, c, now);
            var seen := ApplyPoll(HandleJoin(p, Joined(j.response.yourToken, j.response.yourName)),
                                  Fetched(GetStatus(j.state)));
            AmIInQueue(seen)
    ensures var j := Join(s, c, now);
            var seen := ApplyPoll(HandleJoin(p, Joined(j.response.yourToken, j.response.yourName)),
                                  Fetched(GetStatus(j.state)));
            Valid(s) ==> forall i :: 0 <= i < |j.state.queue| ==>
                           (IsMe(seen, j.state.queue[i]) <==> i == |s.queue|)
  {
    var j := Join(s, c, now);
    var seen := ApplyPoll(HandleJoin(p, Joined(j.response.yourToken, j.response.yourName)),
                          Fetched(GetStatus(j.state)));
    assert IsMe(seen, j.state.queue[|s.queue|]);
    if Valid(s) {
      JoinPreservesValid(s, c, now);
      ValidQueue(j.state);
    }
  }

  /** The leave request of a session obtained from a join in a valid state is
      sent (the token is never zero) and carries the issued token; when it
      reaches the server right after the join, the server reports that the
      viewer left. */
  lemma LeaveAfterJoin(s: State, c: Customer, now: string, p: Page, outcome: RequestOutcome)
    requires Valid(s)
    ensures var j := Join(s, c, now);
            var step := HandleLeave(HandleJoin(p, Joined(j.response.yourToken, j.response.yourName)), true, outcome);
            step.request == Some(j.response.yourToken)
            && Leave(j.state, j.response.yourToken).response == LeftQueue
  {
    var j := Join(s, c, now);
    assert j.state.queue[|s.queue|].token == j.response.yourToken;
  }

  /** When the server drops the viewer's token (whoever asked), the next
      successful poll shows the viewer as not in the queue, while the page
      still holds the stale token. */
  lemma RemovedElsewhere(s: State, p: Page)
    requires p.myToken.Some? && p.myToken.value.Int?
    ensures var seen := ApplyPoll(p, Fetched(GetStatus(Leave(s, p.myToken.value.n).state)));
            !AmIInQueue(seen) && seen.myToken == p.myToken
  {
    var t := p.myToken.value.n;
    var q := Leave(s, t).state.queue;
    forall i | 0 <= i < |q| ensures q[i].token != t {
      assert q[i] in multiset(q);
    }
    StaleSessionDetected(p, GetStatus(Leave(s, t).state));
  }

  /** In a valid state, once the viewer at the head of the queue is served, the
      next successful poll shows them as not in the queue. */
  lemma ServedThenPoll(s: State, now: string, p: Page)
    requires Valid(s) && |s.queue| > 0 && p.myToken == Some(Int(s.queue[0].token))
    ensures !AmIInQueue(ApplyPoll(p, Fetched(GetStatus(Next(s, now).state))))
  {
    ValidQueue(s);
    var q := Next(s, now).state.queue;
    forall i | 0 <= i < |q| ensures q[i].token != s.queue[0].token {
      assert q[i] == s.queue[i + 1];
    }
    StaleSessionDetected(p, GetStatus(Next(s, now).state));
  }
}

=== FILE: number_text.dfy ===
/** The two conversions between a token and the text the browser's key-value
    store keeps: `toString` on an integer number, and the global `parseInt`
    called without a radix, as section 19.2.5 of the ECMAScript 2024 language
    specification defines it. */
module NumberText {

  /** A JavaScript number as the page can hold a token: an integer, or `NaN`
      when `parseInt` found no digits. */
  datatype JsInt = Int(n: int) | NaN

  /** The white space and line terminators `parseInt` skips before the number:
      tab, vertical tab, form feed, the byte order mark, every space separator,
      and the four line terminators. */
  predicate IsSpace(c: char) {
    c == '\t' || c == '\U{000B}' || c == '\U{000C}' || c == '\U{FEFF}'
    || c == ' ' || c == '\U{00A0}' || c == '\U{1680}' || ('\U{2000}' <= c <= '\U{200A}')
    || c == '\U{202F}' || c == '\U{205F}' || c == '\U{3000}'
    || c == '\n' || c == '\r' || c == '\U{2028}' || c == '\U{2029}'
  }

  predicate IsDecimalDigit(c: char) {
    '0' <= c <= '9'
  }

  /** A digit in the given radix: only 10 and 16 arise without a radix argument. */
  predicate IsDigit(c: char, radix: nat) {
    IsDecimalDigit(c) || (radix == 16 && ('a' <= c <= 'f' || 'A' <= c <= 'F'))
  }

  /** The value of a digit character; letters count from 10. */
  function DigitValue(c: char): nat {
    if IsDecimalDigit(c) then c as int - '0' as int
    else if 'a' <= c <= 'z' then c as int - 'a' as int + 10
    else if 'A' <= c <= 'Z' then c as int - 'A' as int + 10
    else 0
  }

  /** The character of a decimal digit value. */
  function DecimalChar(d: nat): (c: char)
    requires d < 10
    ensures IsDecimalDigit(c) && DigitValue(c) == d
  {
    ('0' as int + d) as char
  }

  /** The value of a digit string, most significant digit first. */
  function ValueOf(d: string, radix: nat): nat {
    if |d| == 0 then 0 else ValueOf(d[..|d| - 1], radix) * radix + DigitValue(d[|d| - 1])
  }

  /** `s` without its leading white space. */
  function TrimStart(s: string): (r: string)
    ensures |r| <= |s| && r == s[|s| - |r|..]
    ensures forall i :: 0 <= i < |s| - |r| ==> IsSpace(s[i])
    ensures |r| == 0 || !IsSpace(r[0])
  {
    if |s| > 0 && IsSpace(s[0]) then
      var r := TrimStart(s[1..]);
      assert forall i :: 1 <= i < |s| - |r| ==> s[i] == s[1..][i - 1];
      r
    else s
  }

  /** The longest prefix of `s` made of digits of the radix. */
  function DigitPrefix(s: string, radix: nat): (r: string)
    ensures |r| <= |s| && r == s[..|r|]
    ensures forall i :: 0 <= i < |r| ==> IsDigit(r[i], radix)
    ensures |r| == |s| || !IsDigit(s[|r|], radix)
  {
    if |s| > 0 && IsDigit(s[0], radix) then
      var rest := DigitPrefix(s[1..], radix);
      assert ([s[0]] + rest)[1..] == rest;
      [s[0]] + rest
    else []
  }

  /** The global `parseInt(s)`: skip leading white space, then read a signed
      number. */
  function ParseInt(s: string): JsInt {
    ReadSigned(TrimStart(s))
  }

  /** An optional sign, then the unsigned number after it. Negative zero is
      zero. */
  function ReadSigned(t: string): JsInt {
    if |t| > 0 && t[0] == '-' then
      match ReadUnsigned(t[1..])
      case Int(v) => Int(-v)
      case NaN => NaN
    else if |t| > 0 && t[0] == '+' then ReadUnsigned(t[1..])
    else ReadUnsigned(t)
  }

  /** Whether `u` starts with the `0x` or `0X` prefix of a hexadecimal numeral. */
  predicate HexPrefixed(u: string) {
    |u| >= 2 && u[0] == '0' && (u[1] == 'x' || u[1] == 'X')
  }

  /** What `parseInt` reads after the sign: radix 16 after a `0x` or `0X`
      prefix, radix 10 otherwise, then the longest run of digits; `NaN` when
      that run is empty. */
  function ReadUnsigned(u: string): JsInt {
    var radix := if HexPrefixed(u) then 16 else 10;
    var digits := DigitPrefix(if HexPrefixed(u) then u[2..] else u, radix);
    if |digits| == 0 then NaN else Int(ValueOf(digits, radix))
  }

  /** A decimal numeral as `toString` writes one: digits only, and no leading
      zero unless the numeral is "0". */
  predicate Canonical(d: string) {
    |d| > 0 && (forall i :: 0 <= i < |d| ==> IsDecimalDigit(d[i])) && (d[0] == '0' ==> |d| == 1)
  }

  /** `n.toString()` for a natural number. */
  function NatToString(n: nat): (r: string)
    ensures Canonical(r)
    ensures ValueOf(r, 10) == n
  {
    if n < 10 then
      var r := [DecimalChar(n)];
      assert r[..0] == [];
      r
    else
      var front := NatToString(n / 10);
      var r := front + [DecimalChar(n % 10)];
      assert r[..|r| - 1] == front;
      LeadingDigitOfPositive(front);
      r
  }

  /** A canonical numeral of a positive value does not start with "0". */
  lemma LeadingDigitOfPositive(d: string)
    requires Canonical(d) && ValueOf(d, 10) > 0
    ensures d[0] != '0'
  {
    if |d| == 1 {
      assert d[..0] == [];
    }
  }

  /** `n.toString()` for an integer number: a minus sign before the digits of a
      negative one. */
  function IntToString(n: int): (r: string)
    ensures |r| > 0
    ensures n >= 0 ==> Canonical(r) && ValueOf(r, 10) == n
    ensures n < 0 ==> r == "-" + r[1..] && Canonical(r[1..]) && ValueOf(r[1..], 10) == -n
  {
    if n >= 0 then NatToString(n) else "-" + NatToString(-n)
  }

  // ---------------------------------------------------------------------------
  // properties of parseInt

  /** Leading white space never changes what `parseInt` reads. */
  lemma {:induction false} ParseIntSkipsSpace(w: string, s: string)
    requires forall i :: 0 <= i < |w| ==> IsSpace(w[i])
    ensures ParseInt(w + s) == ParseInt(s)
  {
    TrimStartSkipsSpace(w, s);
  }

  lemma {:induction false} TrimStartSkipsSpace(w: string, s: string)
    requires forall i :: 0 <= i < |w| ==> IsSpace(w[i])
    ensures TrimStart(w + s) == TrimStart(s)
    decreases |w|
  {
    if |w| > 0 {
      assert (w + s)[1..] == w[1..] + s;
      TrimStartSkipsSpace(w[1..], s);
    } else {
      assert w + s == s;
    }
  }

  /** A run of digits followed by a non-digit (or nothing) is read up to the
      non-digit. */
  lemma {:induction false} DigitPrefixStops(d: string, tail: string, radix: nat)
    requires forall i :: 0 <= i < |d| ==> IsDigit(d[i], radix)
    requires |tail| == 0 || !IsDigit(tail[0], radix)
    ensures DigitPrefix(d + tail, radix) == d
    decreases |d|
  {
    if |d| > 0 {
      assert (d + tail)[0] == d[0];
      assert (d + tail)[1..] == d[1..] + tail;
      DigitPrefixStops(d[1..], tail, radix);
      assert [d[0]] + d[1..] == d;
    } else {
      assert d + tail == tail;
    }
  }

  /** `parseInt` reads back the number `toString` wrote, also when other text
      follows that does not continue the numeral: a non-digit, and after a lone
      "0" not an `x` or `X` (which would switch to radix 16). */
  lemma {:induction false} ParseIntReadsLeadingNumber(n: int, tail: string)
    requires |tail| == 0 || !IsDecimalDigit(tail[0])
    requires n == 0 && |tail| > 0 ==> tail[0] != 'x' && tail[0] != 'X'
    ensures ParseInt(IntToString(n) + tail) == Int(n)
  {
    if n >= 0 {
      ReadDigits(NatToString(n), tail);
      SignlessNumeral(NatToString(n) + tail);
    } else {
      ReadNegative(n, tail);
    }
  }

  /** A minus sign before a numeral `toString` wrote reads as the negated value. */
  lemma ReadNegative(n: int, tail: string)
    requires n < 0
    requires |tail| == 0 || !IsDecimalDigit(tail[0])
    ensures ParseInt(IntToString(n) + tail) == Int(n)
  {
    var u := NatToString(-n) + tail;
    var s := "-" + u;
    assert IntToString(n) + tail == s;
    ReadDigits(NatToString(-n), tail);
    SignlessNumeral(s);
    assert s[1..] == u;
  }

  /** Text starting with a digit or a minus sign has no white space to skip. */
  lemma SignlessNumeral(s: string)
    requires |s| > 0 && (IsDecimalDigit(s[0]) || s[0] == '-')
    ensures ParseInt(s) == ReadSigned(s)
  {
    assert !IsSpace(s[0]);
  }

  /** The unsigned part of a numeral `toString` wrote reads as its value. */
  lemma ReadDigits(d: string, tail: string)
    requires Canonical(d)
    requires |tail| == 0 || !IsDecimalDigit(tail[0])
    requires ValueOf(d, 10) == 0 && |tail| > 0 ==> tail[0] != 'x' && tail[0] != 'X'
    ensures ReadUnsigned(d + tail) == Int(ValueOf(d, 10))
  {
    var u := d + tail;
    assert u[0] == d[0];
    if |d| >= 2 {
      assert u[1] == d[1];
    } else if |tail| > 0 {
      assert u[1] == tail[0];
      assert d[..0] == [];
      assert ValueOf(d, 10) == DigitValue(d[0]);
    }
    assert !HexPrefixed(u);
    DigitPrefixStops(d, tail, 10);
  }

  /** `parseInt` inverts `toString` on every integer token. */
  lemma ParseIntRoundTrip(n: int)
    ensures ParseInt(IntToString(n)) == Int(n)
  {
    ParseIntReadsLeadingNumber(n, "");
    assert IntToString(n) + "" == IntToString(n);
  }

  /** Text whose first character is neither white space, a sign nor a digit
      reads as `NaN`; so does the empty text. */
  lemma ParseIntNoDigits(s: string)
    requires |s| == 0 || (!IsSpace(s[0]) && s[0] != '-' && s[0] != '+' && !IsDecimalDigit(s[0]))
    ensures ParseInt(s) == NaN
  {
  }
}

=== FILE: ordering.dfy ===
/** Order-preserving selection from a sequence. */
module Ordering {

  /** `a` can be obtained from `b` by deleting elements, keeping the order of the rest.
      Matching the heads greedily decides this exactly. */
  predicate IsSubsequence<T(==)>(a: seq<T>, b: seq<T>)
    decreases |b|
  {
    if |a| == 0 then true
    else if |b| == 0 then false
    else if a[0] == b[0] then IsSubsequence(a[1..], b[1..])
    else IsSubsequence(a, b[1..])
  }

  /** Every element kept is an element of the original. */
  lemma {:induction false} SubsequenceMembers<T>(a: seq<T>, b: seq<T>)
    requires IsSubsequence(a, b)
    ensures forall x :: x in a ==> x in b
    decreases |b|
  {
    if |a| == 0 {
    } else if a[0] == b[0] {
      SubsequenceMembers(a[1..], b[1..]);
      forall x | x in a ensures x in b {
        if x != a[0] {
          assert x in a[1..];
        }
      }
    } else {
      SubsequenceMembers(a, b[1..]);
    }
  }

  /** A common prefix can be put in front of both sides. */
  lemma {:induction false} SubsequenceUnderPrefix<T>(h: seq<T>, a: seq<T>, b: seq<T>)
    requires IsSubsequence(a, b)
    ensures IsSubsequence(h + a, h + b)
    decreases |h|
  {
    if |h| > 0 {
      SubsequenceUnderPrefix(h[1..], a, b);
      assert (h + a)[1..] == h[1..] + a && (h + b)[1..] == h[1..] + b;
    } else {
      assert h + a == a && h + b == b;
    }
  }
}

=== FILE: queue_invariant.dfy ===
/** What every reachable server state satisfies, and why: tokens are handed out
    in increasing order, join appends the largest token so far, leave only
    deletes, and next moves the head of the queue to the end of the history. */
module QueueInvariant {
  import opened Wrappers
  import opened Ordering
  import opened QueueServer

  /** Tokens strictly increase along `es` (so no token occurs twice). */
  predicate Ascending(es: seq<Entry>) {
    forall i, j :: 0 <= i < j < |es| ==> es[i].token < es[j].token
  }

  /** The served entries followed by the waiting ones: every entry admitted and
      not withdrawn, in order of admission. */
  function Admitted(s: State): seq<Entry> {
    s.history + s.queue
  }

  predicate Valid(s: State) {
    && s.currentToken >= InitialToken
    && Ascending(Admitted(s))
    && (forall e :: e in Admitted(s) ==> InitialToken < e.token <= s.currentToken)
    && (forall e :: e in s.queue ==> e.status == Waiting)
    && (forall e :: e in s.history ==> e.status == Completed)
  }

  lemma {:induction false} SubsequenceKeepsAscending(a: seq<Entry>, b: seq<Entry>)
    requires IsSubsequence(a, b) && Ascending(b)
    ensures Ascending(a)
    decreases |b|
  {
    if |a| == 0 {
    } else if a[0] == b[0] {
      SubsequenceKeepsAscending(a[1..], b[1..]);
      SubsequenceMembers(a[1..], b[1..]);
      forall i, j | 0 <= i < j < |a| ensures a[i].token < a[j].token {
        assert a[j] == a[1..][j - 1];
        if i == 0 {
          assert a[j] in a[1..];
          var k :| 0 <= k < |b[1..]| && b[1..][k] == a[j];
          assert b[k + 1] == a[j];
        } else {
          assert a[i] == a[1..][i - 1];
        }
      }
    } else {
      SubsequenceKeepsAscending(a, b[1..]);
    }
  }

  /** The facts about the waiting queue alone: tokens strictly increasing, all
      issued, none at or below the starting value. The history, too, is in
      token order, so customers are served in the order they joined. */
  lemma ValidQueue(s: State)
    requires Valid(s)
    ensures Ascending(s.queue)
    ensures forall e :: e in s.queue ==> InitialToken < e.token <= s.currentToken
    ensures Ascending(s.history)
    ensures forall i, j :: 0 <= i < |s.history| && 0 <= j < |s.queue| ==> s.history[i].token < s.queue[j].token
  {
    var a := Admitted(s);
    forall i, j | 0 <= i < j < |s.queue| ensures s.queue[i].token < s.queue[j].token {
      assert s.queue[i] == a[|s.history| + i] && s.queue[j] == a[|s.history| + j];
    }
    forall e | e in s.queue ensures InitialToken < e.token <= s.currentToken {
      assert e in a;
    }
    forall i, j | 0 <= i < j < |s.history| ensures s.history[i].token < s.history[j].token {
      assert s.history[i] == a[i] && s.history[j] == a[j];
    }
    forall i, j | 0 <= i < |s.history| && 0 <= j < |s.queue|
      ensures s.history[i].token < s.queue[j].token
    {
      assert s.history[i] == a[i] && s.queue[j] == a[|s.history| + j];
    }
  }

  lemma InitValid()
    ensures Valid(Init())
  {
  }

  // ---------------------------------------------------------------------------
  // join

  /** Join keeps the invariant: the new token exceeds every token admitted so far. */
  lemma JoinPreservesValid(s: State, c: Customer, now: string)
    requires Valid(s)
    ensures Valid(Join(s, c, now).state)
  {
    var r := Join(s, c, now).state;
    var entry := r.queue[|s.queue|];
    assert r.queue == s.queue + [entry];
    assert Admitted(r) == Admitted(s) + [entry];
    forall i, j | 0 <= i < j < |Admitted(r)| ensures Admitted(r)[i].token < Admitted(r)[j].token {
      if j == |Admitted(s)| {
        assert Admitted(r)[i] in Admitted(s);
      }
    }
  }

  /** The token a join hands out is not the token of any entry in the history
      or the queue. */
  lemma JoinTokenFresh(s: State, c: Customer, now: string)
    requires Valid(s)
    ensures Join(s, c, now).response.yourToken > InitialToken
    ensures Join(s, c, now).response.yourToken !in Tokens(Admitted(s))
  {
    var t := Join(s, c, now).response.yourToken;
    forall i | 0 <= i < |Admitted(s)| ensures Tokens(Admitted(s))[i] < t {
      assert Admitted(s)[i] in Admitted(s);
    }
  }

  // ---------------------------------------------------------------------------
  // leave

  /** Leave keeps the invariant: it deletes entries and keeps the rest in order. */
  lemma LeavePreservesValid(s: State, t: int)
    requires Valid(s)
    ensures Valid(Leave(s, t).state)
  {
    var r := Leave(s, t).state;
    SubsequenceUnderPrefix(s.history, r.queue, s.queue);
    SubsequenceKeepsAscending(Admitted(r), Admitted(s));
    SubsequenceMembers(Admitted(r), Admitted(s));
    SubsequenceMembers(r.queue, s.queue);
  }

  /** With strictly increasing tokens, removing a present token removes exactly one entry. */
  lemma {:induction false} RemovePresentToken(q: seq<Entry>, t: int)
    requires Ascending(q) && Holds(q, t)
    ensures |RemoveToken(q, t)| == |q| - 1
    decreases |q|
  {
    HoldsUncons(q, t);
    if q[0].token == t {
      forall i | 0 <= i < |q[1..]| ensures q[1..][i].token != t {
        assert q[1..][i] == q[i + 1];
      }
    } else {
      RemovePresentToken(q[1..], t);
    }
  }

  /** In a valid state a successful leave shortens the queue by exactly one. */
  lemma LeaveRemovesOne(s: State, t: int)
    requires Valid(s)
    ensures Leave(s, t).response == LeftQueue ==> |Leave(s, t).state.queue| == |s.queue| - 1
    ensures Leave(s, t).response == TokenNotFound ==> Leave(s, t).state == s
  {
    if Holds(s.queue, t) {
      ValidQueue(s);
      RemovePresentToken(s.queue, t);
    }
  }

  // ---------------------------------------------------------------------------
  // next

  /** Next neither loses nor duplicates a token: the admitted tokens, in order,
      are the same before and after. */
  lemma NextConservesTokens(s: State, now: string)
    ensures Tokens(Admitted(Next(s, now).state)) == Tokens(Admitted(s))
  {
    var r := Next(s, now).state;
    if |s.queue| > 0 {
      assert |Admitted(r)| == |Admitted(s)|;
      forall i | 0 <= i < |Admitted(r)| ensures Admitted(r)[i].token == Admitted(s)[i].token {
        if i > |s.history| {
          assert Admitted(r)[i] == s.queue[i - |s.history|];
        }
      }
    }
  }

  /** Next keeps the invariant. */
  lemma NextPreservesValid(s: State, now: string)
    requires Valid(s)
    ensures Valid(Next(s, now).state)
  {
    var r := Next(s, now).state;
    if |s.queue| > 0 {
      NextConservesTokens(s, now);
      assert Tokens(Admitted(r)) == Tokens(Admitted(s));
      forall i, j | 0 <= i < j < |Admitted(r)| ensures Admitted(r)[i].token < Admitted(r)[j].token {
        assert Tokens(Admitted(r))[i] == Tokens(Admitted(s))[i];
        assert Tokens(Admitted(r))[j] == Tokens(Admitted(s))[j];
      }
      forall e | e in Admitted(r) ensures InitialToken < e.token <= r.currentToken {
        var i :| 0 <= i < |Admitted(r)| && Admitted(r)[i] == e;
        assert Tokens(Admitted(r))[i] == Tokens(Admitted(s))[i];
        assert Admitted(s)[i] in Admitted(s);
      }
      forall e | e in r.queue ensures e.status == Waiting {
        assert e in s.queue;
      }
    }
  }

  // ---------------------------------------------------------------------------
  // status

  /** A join adds one person and fifteen minutes to the next status report. */
  lemma StatusAfterJoin(s: State, c: Customer, now: string)
    ensures GetStatus(Join(s, c, now).state).peopleAhead == GetStatus(s).peopleAhead + 1
    ensures GetStatus(Join(s, c, now).state).estimatedWaitMinutes
         == GetStatus(s).estimatedWaitMinutes + MinutesPerPerson
  {
  }

  /** Serving someone takes one person and fifteen minutes off the next status
      report and puts the served entry last in its history. */
  lemma StatusAfterNext(s: State, now: string)
    requires |s.queue| > 0
    ensures GetStatus(Next(s, now).state).peopleAhead == GetStatus(s).peopleAhead - 1
    ensures GetStatus(Next(s, now).state).estimatedWaitMinutes
         == GetStatus(s).estimatedWaitMinutes - MinutesPerPerson
    ensures var h := GetStatus(Next(s, now).state).history;
            |h| > 0 && h[|h| - 1] == Served(s.queue[0], now)
  {
  }

  // ---------------------------------------------------------------------------
  // traces from process start

  /** One request to the server. */
  datatype Op = JoinOp(customer: Customer, now: string) | LeaveOp(token: int) | NextOp(now: string) | StatusOp

  function Step(s: State, op: Op): State {
    match op
    case JoinOp(c, now) => Join(s, c, now).state
    case LeaveOp(t) => Leave(s, t).state
    case NextOp(now) => Next(s, now).state
    case StatusOp => s
  }

  /** The state after serving `ops` in order, starting from process start. */
  function Run(ops: seq<Op>): State
    decreases |ops|
  {
    if |ops| == 0 then Init() else Step(Run(ops[..|ops| - 1]), ops[|ops| - 1])
  }

  function JoinCount(ops: seq<Op>): nat
    decreases |ops|
  {
    if |ops| == 0 then 0
    else JoinCount(ops[..|ops| - 1]) + if ops[|ops| - 1].JoinOp? then 1 else 0
  }

  /** Every state the server can reach satisfies the invariant. */
  lemma {:induction false} RunValid(ops: seq<Op>)
    ensures Valid(Run(ops))
    decreases |ops|
  {
    if |ops| == 0 {
      InitValid();
    } else {
      var s := Run(ops[..|ops| - 1]);
      RunValid(ops[..|ops| - 1]);
      match ops[|ops| - 1]
      case JoinOp(c, now) => JoinPreservesValid(s, c, now);
      case LeaveOp(t) => LeavePreservesValid(s, t);
      case NextOp(now) => NextPreservesValid(s, now);
      case StatusOp =>
    }
  }

  /** The counter moves only on join, one step each time: after `k` joins the
      last token issued is 100 + k, so the first one ever issued is 101. */
  lemma {:induction false} RunCounter(ops: seq<Op>)
    ensures Run(ops).currentToken == InitialToken + JoinCount(ops)
    decreases |ops|
  {
    if |ops| > 0 {
      RunCounter(ops[..|ops| - 1]);
    }
  }

  /** The first join after process start, whatever requests came before it,
      is issued token 101. */
  lemma FirstToken(ops: seq<Op>, c: Customer, now: string)
    requires JoinCount(ops) == 0
    ensures Join(Run(ops), c, now).response.yourToken == 101
  {
    RunCounter(ops);
  }

  /** The tokens handed out by the joins of `ops`, in the order they were issued. */
  function Issued(ops: seq<Op>): seq<int>
    decreases |ops|
  {
    if |ops| == 0 then []
    else
      var before := ops[..|ops| - 1];
      match ops[|ops| - 1]
      case JoinOp(c, now) => Issued(before) + [Join(Run(before), c, now).response.yourToken]
      case _ => Issued(before)
  }

  /** Every token ever issued lies in (100, counter], and the issued tokens
      strictly increase, so none was issued twice. */
  lemma {:induction false} IssuedTokens(ops: seq<Op>)
    ensures forall t :: t in Issued(ops) ==> InitialToken < t <= Run(ops).currentToken
    ensures forall i, j :: 0 <= i < j < |Issued(ops)| ==> Issued(ops)[i] < Issued(ops)[j]
    decreases |ops|
  {
    if |ops| > 0 {
      var before := ops[..|ops| - 1];
      IssuedTokens(before);
      match ops[|ops| - 1]
      case JoinOp(c, now) =>
        var prior := Issued(before);
        var t := Join(Run(before), c, now).response.yourToken;
        assert Issued(ops) == prior + [t];
        RunCounter(before);
        assert Run(ops) == Join(Run(before), c, now).state;
        forall i | 0 <= i < |prior| ensures prior[i] < t {
          assert prior[i] in prior;
        }
      case _ =>
    }
  }

  /** The token the next join hands out was never handed out before, even to
      an entry that has since left. */
  lemma NeverReissued(ops: seq<Op>, c: Customer, now: string)
    ensures Join(Run(ops), c, now).response.yourToken !in Issued(ops)
  {
    IssuedTokens(ops);
  }
}

=== FILE: queue_server.dfy ===
/** The queue server: three pieces of process-wide state (the waiting queue, the
    history of served entries and the last token issued) and the four endpoints
    that read or change them. The state is an immutable value here; every
    endpoint that changes it returns the new state beside its response. */
module QueueServer {
  import opened Wrappers
  import opened Ordering

  /** The counter's starting value; the first token handed out is one more. */
  const InitialToken: int := 100
  /** Flat per-person estimate used by the status endpoint. */
  const MinutesPerPerson: int := 15
  /** How many of the most recently served entries the status endpoint returns. */
  const HistoryWindow: nat := 5
  /** Service recorded when the join request omits `service_type`. */
  const DefaultService: string := "Haircut"
  const ShopOpen: string := "Open"
  const JoinedMessage: string := "Joined successfully"
  const LeftMessage: string := "You have left the queue."
  const NotFoundMessage: string := "Token not found (maybe already removed?)"

  datatype EntryStatus = Waiting | Completed

  /** One record of the queue or of the history. `joinedAt` and `completedAt`
      are wall-clock display strings, opaque to every rule below. */
  datatype Entry = Entry(
    token: int,
    name: string,
    phone: string,
    service: string,
    status: EntryStatus,
    joinedAt: string,
    completedAt: Option<string>)

  /** Body of a join request. */
  datatype Customer = Customer(name: string, phone: string, serviceType: Option<string>)

  datatype State = State(queue: seq<Entry>, history: seq<Entry>, currentToken: int)

  /** The state when the process starts. */
  function Init(): State {
    State([], [], InitialToken)
  }

  /** The tokens of a sequence of entries, in the same order. */
  function Tokens(es: seq<Entry>): seq<int>
  {
    seq(|es|, i requires 0 <= i < |es| => es[i].token)
  }

  // ---------------------------------------------------------------------------
  // status

  datatype StatusReport = StatusReport(
    shopStatus: string,
    peopleAhead: int,
    estimatedWaitMinutes: int,
    queue: seq<Entry>,
    history: seq<Entry>)

  /** Python's `s[-n:]` for a positive `n`: the last `n` elements, or all of
      them when there are fewer. */
  function LastN<T>(s: seq<T>, n: nat): (r: seq<T>)
    requires n > 0
    ensures |r| == if |s| < n then |s| else n
    ensures s == s[..|s| - |r|] + r
  {
    if |s| <= n then s else s[|s| - n..]
  }

  /** The status endpoint. It only reads the state. */
  function GetStatus(s: State): (r: StatusReport)
    ensures r.shopStatus == ShopOpen
    ensures r.peopleAhead == |s.queue|
    ensures r.estimatedWaitMinutes == MinutesPerPerson * |s.queue|
    ensures r.queue == s.queue
    ensures |r.history| == if |s.history| < HistoryWindow then |s.history| else HistoryWindow
    ensures s.history == s.history[..|s.history| - |r.history|] + r.history
  {
    var waiting := |s.queue|;
    StatusReport(ShopOpen, waiting, waiting * MinutesPerPerson, s.queue, LastN(s.history, HistoryWindow))
  }

  // ---------------------------------------------------------------------------
  // join

  datatype JoinResponse = JoinResponse(message: string, yourToken: int, yourName: string)
  datatype JoinResult = JoinResult(state: State, response: JoinResponse)

  /** The join endpoint: bump the counter and append a waiting entry carrying it. */
  function Join(s: State, c: Customer, now: string): (r: JoinResult)
    ensures r.state.currentToken == s.currentToken + 1
    ensures r.response == JoinResponse(JoinedMessage, r.state.currentToken, c.name)
    ensures |r.state.queue| == |s.queue| + 1
    ensures r.state.queue[..|s.queue|] == s.queue
    ensures r.state.queue[|s.queue|].token == r.state.currentToken
    ensures r.state.queue[|s.queue|].status == Waiting
    ensures r.state.queue[|s.queue|].name == c.name
    ensures r.state.queue[|s.queue|].phone == c.phone
    ensures r.state.queue[|s.queue|].service == c.serviceType.GetOr(DefaultService)
    ensures r.state.queue[|s.queue|].completedAt == None
    ensures r.state.history == s.history
  {
    var token := s.currentToken + 1;
    var entry := Entry(token, c.name, c.phone, c.serviceType.GetOr(DefaultService), Waiting, now, None);
    JoinResult(State(s.queue + [entry], s.history, token), JoinResponse(JoinedMessage, token, c.name))
  }

  // ---------------------------------------------------------------------------
  // leave

  datatype LeaveResponse = LeftQueue | TokenNotFound {
    function Message(): string {
      match this
      case LeftQueue => LeftMessage
      case TokenNotFound => NotFoundMessage
    }
  }
  datatype LeaveResult = LeaveResult(state: State, response: LeaveResponse)

  /** Whether some entry of `q` carries token `t`. */
  predicate Holds(q: seq<Entry>, t: int) {
    exists i :: 0 <= i < |q| && q[i].token == t
  }

  /** The list comprehension of the leave endpoint: every entry whose token is
      not `t`, in their original order. */
  function RemoveToken(q: seq<Entry>, t: int): (r: seq<Entry>)
    ensures forall e :: multiset(r)[e] == if e.token == t then 0 else multiset(q)[e]
    ensures IsSubsequence(r, q)
    ensures |r| < |q| <==> Holds(q, t)
    ensures !Holds(q, t) ==> r == q
  {
    if |q| == 0 then []
    else
      var rest := RemoveToken(q[1..], t);
      assert q == [q[0]] + q[1..];
      HoldsUncons(q, t);
      if q[0].token == t then
        rest
      else
        assert ([q[0]] + rest)[1..] == rest;
        [q[0]] + rest
  }

  /** `t` is held by a non-empty sequence iff by its head or by its tail. */
  lemma HoldsUncons(q: seq<Entry>, t: int)
    requires |q| > 0
    ensures Holds(q, t) <==> q[0].token == t || Holds(q[1..], t)
  {
    if Holds(q, t) && q[0].token != t {
      var i :| 0 <= i < |q| && q[i].token == t;
      assert q[1..][i - 1].token == t;
    }
    if Holds(q[1..], t) {
      var i :| 0 <= i < |q[1..]| && q[1..][i].token == t;
      assert q[i + 1].token == t;
    }
  }

  /** The leave endpoint: drop every entry with the given token and report
      whether the queue got shorter. */
  function Leave(s: State, t: int): (r: LeaveResult)
    ensures r.state.queue == RemoveToken(s.queue, t)
    ensures r.state.history == s.history
    ensures r.state.currentToken == s.currentToken
    ensures r.response == LeftQueue <==> Holds(s.queue, t)
    ensures !Holds(s.queue, t) ==> r.state == s
    ensures r.response.Message() == if Holds(s.queue, t) then LeftMessage else NotFoundMessage
  {
    var remaining := RemoveToken(s.queue, t);
    var response := if |remaining| < |s.queue| then LeftQueue else TokenNotFound;
    LeaveResult(s.(queue := remaining), response)
  }

  // ---------------------------------------------------------------------------
  // next

  datatype NextResponse = Called(token: int) | QueueEmpty
  datatype NextResult = NextResult(state: State, response: NextResponse)

  /** The entry as it is filed in the history once served. */
  function Served(e: Entry, now: string): (r: Entry)
    ensures r.token == e.token && r.name == e.name && r.phone == e.phone
    ensures r.service == e.service && r.joinedAt == e.joinedAt
    ensures r.status == Completed && r.completedAt == Some(now)
  {
    e.(status := Completed, completedAt := Some(now))
  }

  /** The next endpoint: move the head of the queue to the end of the history,
      or do nothing when the queue is empty. */
  function Next(s: State, now: string): (r: NextResult)
    ensures |s.queue| == 0 ==> r.state == s && r.response == QueueEmpty
    ensures |s.queue| > 0 ==> r.response == Called(s.queue[0].token)
    ensures |s.queue| > 0 ==> r.state.queue == s.queue[1..]
    ensures |s.queue| > 0 ==> r.state.history == s.history + [Served(s.queue[0], now)]
    ensures r.state.currentToken == s.currentToken
  {
    if |s.queue| > 0 then
      var served := Served(s.queue[0], now);
      NextResult(State(s.queue[1..], s.history + [served], s.currentToken), Called(served.token))
    else
      NextResult(s, QueueEmpty)
  }
}

=== FILE: wrappers.dfy ===
/** Optional values, standing in for Python's `None` and TypeScript's `null`. */
module Wrappers {

  datatype Option<+T> = None | Some(value: T) {

    /** The value held, or `default` when there is none. */
    function GetOr(default: T): T
    {
      match this
      case Some(v) => v
      case None => default
    }
  }
}
